=== FILE: README.md ===
# Celldown RSVP logic in Dafny

This project models the RSVP part of the Celldown event page script (`script.js`):

- the field validators: name, email, country and phone;
- `validateForm` with its error marks and its deferred clear-and-explain timers;
- the participant list and counter that `addParticipant` maintains;
- the confirmation modal's countdown, with its interval and backup-timeout timers and its close triggers;
- the Tab focus trap inside the modal;
- the submit handler that ties these together;
- two small extras: the theme toggle and the extraction of a YouTube id from a thumbnail address.

Everything is written as pure functions over immutable datatypes. The modal is a transition function `Step(state, event)`, and the lemmas reason about sequences of events.

Modules, one per concern:

- `Wrappers`: `Option`.
- `Text`: the JavaScript string behaviour the validators depend on. `trim` and `\s` share one white-space set; `\d` is ASCII 0-9; the digits-only filter `replace(/\D/g, '')` and decimal rendering are also here.
- `Validators`: each regular expression written as an explicit predicate, with a characterisation in plain terms.
- `Form`: the four inputs, `validateForm`, the pending 100 ms timers, the focus handler and `form.reset()`.
- `Registry`: `addParticipant`.
- `ModalController`: `showModal`, `hideModal` and `startModalCountdown` plus the close handlers, as one state machine. Every timer this part starts gets a handle no live timer holds; the model hands them out from a counter. Other timers on the page draw from the same pool, so two openings need not be a fixed distance apart, and nothing here depends on that distance.
- `FocusTrap`: the Tab handler.
- `Submission`: the submit handler.
- `Theme` and `VideoLink`: the extras.

Some behaviours of `script.js` that are easy to miss when reading it:

- The phone pattern is matched against the digits of the input, not the input itself. The optional `+` and the separator classes therefore never take part in the match. What decides is the digit count: 10 to 15 digits, or 16 with a non-zero first digit.
- Every run of the email pattern, including the one after the `.`, is `[^\s@]+`. So an accepted address has exactly one `@` and no white space anywhere. That class contains `.`, so a trailing dot (`a@b.c.`) also passes.
- The name and country rule compares the JavaScript `length` of the trimmed value, which counts UTF-16 code units. A single character outside the Basic Multilingual Plane, such as an emoji, therefore already passes.
- `hideModal` clears only the timeout whose handle is currently in `modalTimer` and never an interval. There is no epoch or cancellation guard. So:
  - an interval left running by a manual close still hides the modal of a later opening when it reaches zero;
  - an earlier opening's backup timeout also closes a later opening early.

  `StaleIntervalClosesLaterOpening` and `StaleTimeoutClosesLaterOpening` state both. An opening is therefore not guaranteed its full five seconds.
- The 100 ms placeholder timers and the focus handler do not commute. If a rejected field is focused before its timer fires, the field keeps the rejection message with no error mark, and a later focus does not restore the original placeholder (`FocusBeforeTimerKeepsMessage`).

## Model

| member | source | states |
|---|---|---|
| Text.Trim | script.js:253 | `trim` never lengthens its input and never goes past the start offset |
| Text.TrimSplits | script.js:253 | the trimmed value is the middle of the input, with white space on both sides and none at its own ends |
| Text.TrimLengthAtLeastTwo | script.js:253 | a trimmed length of at least 2 holds exactly when the input has two non-space characters |
| Text.Utf16Length | script.js:253 | the JavaScript `length` counts each character once, or twice when it lies outside the Basic Multilingual Plane, so it lies between the number of characters and twice that |
| Text.TrimUtf16AtLeastTwo | script.js:253 | a trimmed JavaScript length of at least 2 holds exactly when the input has two non-space characters, or one non-space character outside the Basic Multilingual Plane |
| Text.TrimIdempotent | script.js:336-338 | trimming a trimmed value changes nothing |
| Form.AcceptsTrimmed | script.js:336-338 | the trimmed values the submit handler reads back pass exactly the checks the raw field values passed |
| Text.DigitsOnly | script.js:236 | `replace(/\D/g, '')` keeps only ASCII digits and never lengthens its input |
| Text.DigitsOnlyAppend | script.js:236 | the digits-only filter distributes over concatenation |
| Text.DigitsOnlyTrim | script.js:283 | trimming before filtering digits makes no difference |
| Text.NatToDecimal | script.js:178 | decimal rendering of a natural number is non-empty, all digits, and has no leading zero |
| Text.DecimalRoundTrip | script.js:182 | reading back the rendered digits gives the number again |
| Text.IntToDecimal | script.js:182 | a negative number renders with a leading minus sign, and a non-negative one as its decimal digits |
| Validators.HasMinLength | script.js:253 | the name and country rule accepts exactly the values with two non-space characters, or one non-space character outside the Basic Multilingual Plane |
| Validators.MinLengthExamples | script.js:273 | examples: `" a "` and `""` are rejected; `"ab"` and a lone emoji between spaces are accepted |
| Validators.IsValidEmail | script.js:227-230 | `isValidEmail` accepts exactly the strings with no white space, one `@` with something before it, and a `.` in the domain that is neither its first nor its last character |
| Validators.EmailCharacterization | script.js:228 | the email pattern, as a three-run split, accepts exactly the strings with no white space, one `@` with something before it, and a `.` in the domain that is neither its first nor its last character |
| Validators.EmailSplit | script.js:228 | any split into three non-empty `[^\s@]` runs around an `@` and a later `.` is a match |
| Validators.EmailAcceptedExamples | script.js:228 | examples: `a@b.co`, `a@b..c` and the trailing-dot `a@b.c.` are accepted |
| Validators.EmailRejectedExamples | script.js:228 | examples: `a@b`, `a@.c`, `a.com` and the empty string are rejected |
| Validators.IsValidPhone | script.js:233-237 | a phone number is accepted exactly when it has 10 to 15 digits, or 16 digits not starting with 0, whatever else it contains |
| Validators.DigitsMatchPattern | script.js:235 | on a string of digits the pattern with the ten-digit minimum checks only the length: 10 to 15, or 16 when the first digit is not 0 |
| Validators.PhoneIgnoresNonDigits | script.js:236 | inserting any non-digit anywhere never changes the verdict |
| Validators.PhoneIgnoresTrim | script.js:283 | surrounding white space never changes the verdict |
| Validators.PhoneAcceptedExample | script.js:234-236 | example: `+1 (555) 123-4567` is accepted |
| Validators.PhoneRejectedExample | script.js:236 | example: `12345` is rejected |
| Validators.PhoneSixteenDigits | script.js:235 | sixteen digits pass only when the first is not 0 |
| Form.ValidateForm | script.js:240-292 | the form passes exactly when all four fields do; exactly the rejected fields are marked in error and nothing else about a field changes; a timer is scheduled for exactly the rejected fields, each with its own message, in checking order |
| Form.ValidateFormFacts | script.js:252-292 | all four fields are checked with no short-circuit: the scheduled timers are exactly the rejections, in order, and there are none exactly when every field is accepted |
| Form.ValidateIgnoresOldErrors | script.js:247-250 | error marks left over from an earlier submit do not influence the outcome |
| Form.RejectionsExactly | script.js:253-290 | a timer is scheduled for a field among those checked exactly when that field is rejected, with that field's message |
| Form.ApplyPending | script.js:255-258 | a timer firing empties its field and shows its message, leaving the error mark and every other field as they were |
| Form.Focus | script.js:307-313 | focusing a field in error removes the mark and restores the original placeholder; focusing any other field changes nothing |
| Form.Reset | script.js:353 | `form.reset()` empties every value and keeps marks and placeholders |
| Form.RejectedFieldRecoversOnFocus | script.js:255-312 | a rejected field whose timer has fired becomes empty, unmarked and back to its original placeholder when focused |
| Form.FocusBeforeTimerKeepsMessage | script.js:255-312 | a rejected field focused before its timer fires ends up unmarked and showing the rejection message, and a later focus does not clear it |
| Form.EmptyFormRejected | script.js:240-292 | an empty form is rejected in every field, and every field gets its mark and its timer |
| Registry.Init | script.js:224 | at page load the counter shows the seed and no row has been added |
| Registry.RowText | script.js:299 | a row is the no-phones emoji, the name, " from " and the place, in that order |
| Registry.AddParticipant | script.js:296-304 | the counter goes up by exactly one; exactly one row is appended at the end; earlier rows are unchanged; the counter stays in step with the list |
| Registry.AddAllAppends | script.js:296-304 | a series of confirmations appends their rows in submission order and raises the counter by their number |
| Registry.DuplicatesKept | script.js:296-304 | example: registering the same person twice keeps both rows and counts both |
| Registry.RowTextAmbiguous | script.js:299 | a row does not determine its name and place: moving " from " between them gives the same row |
| ModalController.Hide | script.js:169-173 | closing hides the modal, stops the animation and cancels only the timeout in `modalTimer`; intervals, other timeouts and the text are untouched |
| ModalController.HideIdempotent | script.js:169-173 | closing twice is closing once |
| ModalController.StartCountdown | script.js:176-195 | a countdown starts a fresh 5-second interval and a fresh backup timeout, stores the timeout in `modalTimer`, shows "Closing in 5 seconds..." and leaves every earlier timer running |
| ModalController.Show | script.js:141-166 | opening shows the modal with a welcome for the guest; it animates exactly when it already did or when neither the toggle nor the system preference reduces motion |
| ModalController.Tick | script.js:180-188 | a tick of a cleared interval does nothing; otherwise the interval loses one second and the new value is shown, and at zero the interval is removed and the modal hidden with the backup in `modalTimer` cancelled |
| ModalController.FireBackup | script.js:191-194 | a spent timeout does nothing; otherwise it is removed, it clears the interval it was started with, and the modal is hidden with the timeout in `modalTimer` cancelled; `modalTimer` and every other pending timeout are kept |
| ModalController.Step | script.js:197-212 | only an opening shows the modal or starts timers, and every other event only ever removes interval and timeout handles; no close trigger stops an interval; a click inside the modal, and Escape on a hidden modal, change nothing |
| ModalController.InitialInv | script.js:6 | the page as loaded satisfies the timer invariant |
| ModalController.StepPreservesInv | script.js:141-212 | every event keeps the invariant: handles are fresh, intervals hold 1 to 5, each backup timeout pairs with its interval, the animation only runs while shown, and the modal is shown exactly while `modalTimer` is pending |
| ModalController.RunPreservesInv | script.js:141-212 | every reachable state satisfies the invariant |
| ModalController.OpenStartsCountdown | script.js:176-178 | after an opening, the new interval holds 5, the text reads "Closing in 5 seconds..." and `modalTimer` is the new backup timeout |
| ModalController.TicksCountDown | script.js:180-183 | each tick takes exactly one second off its interval and shows the new value, changing nothing else |
| ModalController.CountdownCloses | script.js:180-188 | after as many ticks as it has seconds, the countdown shows 0, removes its interval, hides the modal and cancels the backup timeout, so neither timer closes it again |
| ModalController.LastTick | script.js:184-187 | the last tick removes the interval and calls `hideModal` |
| ModalController.OpenThenFiveTicks | script.js:176-195 | opening and then five ticks closes the modal exactly once |
| ModalController.BackupCloses | script.js:191-194 | the backup timeout firing first closes the modal and stops the interval, after which neither timer does anything |
| ModalController.CloseTriggers | script.js:197-212 | the close button, Escape and a backdrop click hide the modal; a click inside it does nothing; Escape acts only while shown; no close stops an interval |
| ModalController.ReopenKeepsEarlierTimers | script.js:176-195 | reopening while a countdown runs leaves the earlier interval and backup timeout live next to the new ones |
| ModalController.StaleTimeoutClosesLaterOpening | script.js:191-194 | an earlier opening's backup timeout closes a later opening early and cancels that opening's own timeout, while its interval keeps counting |
| ModalController.StaleIntervalClosesLaterOpening | script.js:184-187 | an interval left running by a manual close hides the next opening when it reaches zero |
| ModalController.RunAppend | script.js:141-212 | running two event sequences in a row is running their concatenation |
| FocusTrap.OnKeyDown | script.js:373-391 | the default is prevented exactly on Tab at the last element or Shift+Tab at the first element; focus then wraps to the other end, and otherwise stays put |
| FocusTrap.FocusStaysInside | script.js:379-389 | Tab and Shift+Tab from inside the modal keep focus inside it |
| FocusTrap.ShiftTabUndoesTab | script.js:379-389 | Shift+Tab undoes Tab and Tab undoes Shift+Tab, across the wrap too |
| FocusTrap.TabCycles | script.js:385-388 | after any number of Tab presses, focus has moved that many places round the modal's elements |
| FocusTrap.FullCycle | script.js:385-388 | as many Tab presses as there are elements bring focus back where it started |
| Submission.Submit | script.js:320-358 | a rejected form leaves the list and the modal alone and only marks fields and schedules their timers; an accepted form is `addParticipant` of the trimmed name and country followed by an opening for the trimmed name, country and email (whose fresh 5-second countdown `OpenStartsCountdown` states), and then an empty form with no marks |
| Submission.SubmitPreservesInvariants | script.js:341-350 | submitting keeps the counter in step with the list and the modal's timers consistent |
| Submission.ResubmitAfterSuccessRejected | script.js:353 | once an accepted submit has completed, a second submit finds an empty form, rejects every field and registers nobody |
| Theme.Toggle | script.js:17-18 | the new theme is "light" exactly after "dark", and otherwise "dark" |
| Theme.ToggleTwice | script.js:16-22 | example: two presses restore either known theme; from any other value they settle on "light" |
| VideoLink.RunEnd | script.js:125 | the greedy `[^\/]+` run stops at the next `/` or at the end |
| VideoLink.FirstMatch | script.js:125 | the match found is the leftmost `vi/` followed by a non-`/` character |
| VideoLink.VideoId | script.js:125 | extraction fails exactly when there is no match; otherwise it yields the non-empty, `/`-free run after the leftmost match |
| VideoLink.ThumbnailRoundTrip | script.js:125 | a thumbnail address built around an id gives that id back when nothing before `vi/` contains a `v` |
| VideoLink.ThumbnailExample | script.js:124-126 | a standard `i.ytimg.com/vi/<id>/hqdefault.jpg` address yields its id |

## Left out

- DOM plumbing: element lookup, class lists, `innerHTML` and the modal details template. The model keeps only the state these encode, such as `shown`, `animate`, `error`, values and placeholders.
- Real durations: the 1000 ms interval, the 5000 ms timeout, the 100 ms placeholder timers and the 5 s success-banner hide. Timers are events that fire in whatever order the caller chooses.
- Submission.Submit: the simulated 1.5 s wait between validation and reading the values is not modelled. The handler runs as one step, and the values registered are the validated ones. In the page a user could edit the form during the wait. The submit control is also never disabled, so a second submit during the wait passes validation on the still-filled form. That second submit then reads the values only after the first handler's `form.reset()`, registers the row for `""` from `""` (counter up by one) and opens a second modal for empty values.
- The loading indicator, the success banner and the submit-button label: display only, with no effect on the logic.
- Rendering the counter into the page, and seeding it with `parseInt` from the page text: the seed is a parameter of `Registry.Init`.
- `window.matchMedia` and the reduce-motion toggle (lines 29-41, 365-370): both are boolean inputs of `Show`. The toggle's label swaps are cosmetic.
- Form.Reset: `form.reset()` restores each input's default value; the model takes every default to be empty, as in an RSVP form with no preset values.
- Registry.RowText: its length clause counts characters, not the UTF-16 units of the page's `length`; no code reads a row's length.
- FocusTrap.TabPress: the browser's own move on an unprevented Tab is taken to be the next or previous element, with the modal's elements consecutive in tab order. This is an assumption about the browser, not something the script decides.
- VideoLink.VideoId: where the page throws a `TypeError` on a failed match, the model returns `None`. `window.open` is not modelled.
- The mobile menu, smooth scrolling, back-to-top, the IntersectionObserver animations, the MutationObserver that focuses the close button, and `console.log`: browser geometry and browser-driven callbacks outside the RSVP logic.
- Integer width: the counter and the countdown seconds stay far below any limit, so they are unbounded integers.

=== FILE: extras.dfy ===
/** The theme toggle button: it reads the page's `data-theme` attribute and
    writes back the other theme. */
module Theme {

  /** The new theme: "light" after "dark", and "dark" after anything else,
      including an attribute that is missing or holds some other word. */
  function Toggle(theme: string): (r: string)
    ensures r == "dark" || r == "light"
    ensures r == "light" <==> theme == "dark"
  {
    if theme == "dark" then "light" else "dark"
  }

  /** From either known theme, two presses restore it; from any other value
      two presses settle on "light". */
  lemma ToggleTwice(theme: string)
    ensures theme == "dark" || theme == "light" ==> Toggle(Toggle(theme)) == theme
    ensures theme != "dark" ==> Toggle(Toggle(theme)) == "light"
  {
  }
}

/** The video-card click handler's extraction of a YouTube id from the
    thumbnail address with `/vi\/([^\/]+)/`. */
module VideoLink {
  import opened Wrappers

  /** The pattern can match starting at `p`: `vi/` there, followed by at
      least one character other than `/`. */
  predicate MatchAt(s: string, p: int) {
    0 <= p && p + 3 < |s| && s[p] == 'v' && s[p + 1] == 'i' && s[p + 2] == '/' && s[p + 3] != '/'
  }

  /** Where the greedy run `[^\/]+` starting at `k` stops: the next `/` or the end. */
  function RunEnd(s: string, k: nat): (e: nat)
    requires k <= |s|
    ensures k <= e <= |s|
    ensures forall j | k <= j < e :: s[j] != '/'
    ensures e == |s| || s[e] == '/'
    decreases |s| - k
  {
    if k == |s| || s[k] == '/' then k else RunEnd(s, k + 1)
  }

  /** The leftmost position at or after `from` where a match starts, as the
      regular-expression engine finds it by trying each start in turn. */
  function FirstMatch(s: string, from: nat): (r: Option<nat>)
    ensures r.Some? ==> from <= r.value && MatchAt(s, r.value)
    ensures forall p | from <= p && (r.None? || p < r.value) :: !MatchAt(s, p)
    decreases |s| - from
  {
    if from + 3 >= |s| then None
    else if MatchAt(s, from) then Some(from)
    else FirstMatch(s, from + 1)
  }

  /** `src.match(/vi\/([^\/]+)/)[1]`: the capture of the leftmost match, or
      `None` where the source would fail on a `null` match. */
  function VideoId(src: string): (r: Option<string>)
    ensures r.None? <==> forall p :: !MatchAt(src, p)
    ensures r.Some? ==> exists p ::
              && MatchAt(src, p) && (forall q | q < p :: !MatchAt(src, q))
              && r.value == src[p + 3..RunEnd(src, p + 3)]
    ensures r.Some? ==> r.value != [] && forall k | 0 <= k < |r.value| :: r.value[k] != '/'
  {
    match FirstMatch(src, 0)
    case None => None
    case Some(p) => Some(src[p + 3..RunEnd(src, p + 3)])
  }

  /** Extracting from a thumbnail address built around an id gives the id
      back, provided nothing before `vi/` contains a `v`. */
  lemma ThumbnailRoundTrip(prefix: string, id: string, rest: string)
    requires forall k | 0 <= k < |prefix| :: prefix[k] != 'v'
    requires id != [] && forall k | 0 <= k < |id| :: id[k] != '/'
    requires rest == [] || rest[0] == '/'
    ensures VideoId(prefix + "vi/" + id + rest) == Some(id)
  {
    var s := prefix + "vi/" + id + rest;
    var p := |prefix|;
    assert MatchAt(s, p);
    forall q | q < p ensures !MatchAt(s, q) {
      if 0 <= q {
        assert s[q] == prefix[q];
      }
    }
    var e := RunEnd(s, p + 3);
    assert forall j | p + 3 <= j < p + 3 + |id| :: s[j] == id[j - p - 3];
    assert p + 3 + |id| == |s| || s[p + 3 + |id|] == '/';
    assert e == p + 3 + |id|;
    assert s[p + 3..e] == id;
  }

  lemma ThumbnailExample()
    ensures VideoId("https://i.ytimg.com/" + "vi/" + "dQw4w9WgXcQ" + "/hqdefault.jpg") == Some("dQw4w9WgXcQ")
  {
    ThumbnailRoundTrip("https://i.ytimg.com/", "dQw4w9WgXcQ", "/hqdefault.jpg");
  }
}

=== FILE: focus.dfy ===
/** The modal's Tab handler, which keeps keyboard focus inside the modal by
    wrapping at its first and last focusable elements. */
module FocusTrap {

  datatype Key = Tab | OtherKey

  /** Where focus ends up, and whether the handler called `preventDefault`. */
  datatype Outcome = Outcome(focus: int, prevented: bool)

  /** The keydown handler on the modal. The modal has `count` focusable
      elements, numbered from 0 in document order; `active` is the number of
      the focused one, or any number outside `0..count` when focus is
      elsewhere. With no focusable element, neither end matches and nothing
      happens. */
  function OnKeyDown(count: nat, active: int, key: Key, shift: bool): (r: Outcome)
    ensures r.prevented <==>
            key == Tab && count >= 1 && (if shift then active == 0 else active == count - 1)
    ensures r.prevented && shift ==> r.focus == count - 1
    ensures r.prevented && !shift ==> r.focus == 0
    ensures !r.prevented ==> r.focus == active
  {
    if key != Tab then Outcome(active, false)
    else if shift then
      if count >= 1 && active == 0 then Outcome(count - 1, true) else Outcome(active, false)
    else
      if count >= 1 && active == count - 1 then Outcome(0, true) else Outcome(active, false)
  }

  /** One Tab press as the user sees it: the handler's move when it prevents
      the default, otherwise the browser's own move to the next (or, with
      Shift, previous) element, taking the modal's focusable elements to be
      consecutive in the page's tab order. */
  function TabPress(count: nat, active: int, shift: bool): int {
    var r := OnKeyDown(count, active, Tab, shift);
    if r.prevented then r.focus else if shift then active - 1 else active + 1
  }

  /** Focus that starts inside the modal never leaves it, in either direction. */
  lemma FocusStaysInside(count: nat, active: int, shift: bool)
    requires 0 <= active < count
    ensures 0 <= TabPress(count, active, shift) < count
  {
  }

  /** Shift+Tab undoes Tab and Tab undoes Shift+Tab, including across the wrap. */
  lemma ShiftTabUndoesTab(count: nat, active: int)
    requires 0 <= active < count
    ensures TabPress(count, TabPress(count, active, false), true) == active
    ensures TabPress(count, TabPress(count, active, true), false) == active
  {
  }

  /** `presses` Tab presses in a row. */
  function TabPresses(count: nat, active: int, presses: nat): int
    decreases presses
  {
    if presses == 0 then active else TabPresses(count, TabPress(count, active, false), presses - 1)
  }

  /** `x` reduced into `0..n` by taking away whole rounds of `n`. */
  function Wrap(x: nat, n: nat): (r: nat)
    requires n > 0
    ensures r < n
  {
    if x < n then x else Wrap(x - n, n)
  }

  /** Tab cycles through the modal's elements in order: after `presses`
      presses focus is `presses` places further on, going round past the
      last element. */
  lemma {:induction false} TabCycles(count: nat, active: int, presses: nat)
    requires 0 <= active < count
    ensures TabPresses(count, active, presses) == Wrap(active + presses, count)
    decreases presses
  {
    if presses > 0 {
      var next := TabPress(count, active, false);
      TabCycles(count, next, presses - 1);
      if active + 1 == count {
        assert next == 0;
        assert Wrap(active + presses, count) == Wrap(presses - 1, count);
      }
    }
  }

  /** `count` presses of Tab bring focus back to where it started. */
  lemma FullCycle(count: nat, active: int)
    requires 0 <= active < count
    ensures TabPresses(count, active, count) == active
  {
    TabCycles(count, active, count);
    assert Wrap(active + count, count) == Wrap(active, count);
  }
}

=== FILE: form.dfy ===
/** The four RSVP inputs and `validateForm`: which fields are accepted, which
    get the `error` class, and the deferred clear-and-explain effect a
    rejected field receives 100 ms later. */
module Form {
  import opened Text
  import opened Validators

  datatype FieldId = FullName | Email | Country | Phone

  /** The position of a field in the order `validateForm` checks them. */
  function Rank(id: FieldId): nat {
    match id
    case FullName => 0
    case Email => 1
    case Country => 2
    case Phone => 3
  }

  /** One `<input>`: its value, its current placeholder, the placeholder it
      had at page load (kept in `data-original-placeholder`), and whether it
      carries the `error` class. */
  datatype Field = Field(value: string, placeholder: string, original: string, error: bool)

  datatype Fields = Fields(name: Field, email: Field, country: Field, phone: Field) {

    function Get(id: FieldId): Field {
      match id
      case FullName => name
      case Email => email
      case Country => country
      case Phone => phone
    }

    function Set(id: FieldId, f: Field): (r: Fields)
      ensures r.Get(id) == f
      ensures forall other | other != id :: r.Get(other) == Get(other)
    {
      match id
      case FullName => this.(name := f)
      case Email => this.(email := f)
      case Country => this.(country := f)
      case Phone => this.(phone := f)
    }
  }

  /** The rule `validateForm` applies to each field's value: the trimmed
      length for the name and the country, the patterns for the others, each
      applied to the trimmed value. */
  predicate Accepts(id: FieldId, value: string) {
    match id
    case FullName => HasMinLength(value)
    case Email => IsValidEmail(Trim(value))
    case Country => HasMinLength(value)
    case Phone => IsValidPhone(Trim(value))
  }

  predicate AllAccepted(fs: Fields) {
    forall id: FieldId :: Accepts(id, fs.Get(id).value)
  }

  /** The placeholder a rejected field shows once its value has been cleared. */
  function Rejection(id: FieldId): string {
    match id
    case FullName => "Not a full name!"
    case Email => "Not an email!"
    case Country => "Not a country!"
    case Phone => "Not a number!"
  }

  /** The 100 ms timer `validateForm` schedules for a rejected field: empty
      its value and show `message` as its placeholder. */
  datatype Pending = ClearField(field: FieldId, message: string)

  /** What `validateForm` returns, the fields as it leaves them, and the
      timers it has scheduled, in the order it scheduled them. */
  datatype Validation = Validation(ok: bool, fields: Fields, pending: seq<Pending>)

  /** The order in which `validateForm` checks the fields. */
  const CheckOrder: seq<FieldId> := [FullName, Email, Country, Phone]

  /** A field after its check: the `error` class is first removed from every
      field and then put back exactly on the rejected ones. */
  function Mark(fs: Fields, id: FieldId): Field {
    var f := fs.Get(id);
    f.(error := !Accepts(id, f.value))
  }

  /** Whether each of `ids` is accepted, in turn. */
  function Verdicts(fs: Fields, ids: seq<FieldId>): (ok: seq<bool>)
    ensures |ok| == |ids|
    ensures forall k | 0 <= k < |ids| :: ok[k] == Accepts(ids[k], fs.Get(ids[k]).value)
  {
    seq(|ids|, k requires 0 <= k < |ids| => Accepts(ids[k], fs.Get(ids[k]).value))
  }

  /** The timers scheduled while going through `ids` in turn, one for each
      field whose verdict is a rejection. */
  function Select(ids: seq<FieldId>, ok: seq<bool>): seq<Pending>
    requires |ok| == |ids|
  {
    if ids == [] then []
    else (if ok[0] then [] else [ClearField(ids[0], Rejection(ids[0]))]) + Select(ids[1..], ok[1..])
  }

  /** The timers `validateForm` schedules while checking `ids`. */
  function Rejections(fs: Fields, ids: seq<FieldId>): seq<Pending> {
    Select(ids, Verdicts(fs, ids))
  }

  predicate Ascending(ids: seq<FieldId>) {
    forall i, j | 0 <= i < j < |ids| :: Rank(ids[i]) < Rank(ids[j])
  }

  function FieldsOf(ps: seq<Pending>): (r: seq<FieldId>)
    ensures |r| == |ps| && forall k | 0 <= k < |ps| :: r[k] == ps[k].field
  {
    if ps == [] then [] else [ps[0].field] + FieldsOf(ps[1..])
  }

  /** A timer is scheduled exactly for each rejected position, with that field's message. */
  lemma {:induction false} SelectExactly(ids: seq<FieldId>, ok: seq<bool>, p: Pending)
    requires |ok| == |ids|
    ensures p in Select(ids, ok) <==>
            exists k | 0 <= k < |ids| :: !ok[k] && p == ClearField(ids[k], Rejection(ids[k]))
  {
    if ids != [] {
      SelectExactly(ids[1..], ok[1..], p);
      if p in Select(ids[1..], ok[1..]) {
        var k :| 0 <= k < |ids[1..]| && !ok[1..][k] && p == ClearField(ids[1..][k], Rejection(ids[1..][k]));
        assert !ok[k + 1] && p == ClearField(ids[k + 1], Rejection(ids[k + 1]));
      }
      if exists k | 0 <= k < |ids| :: !ok[k] && p == ClearField(ids[k], Rejection(ids[k])) {
        var k :| 0 <= k < |ids| && !ok[k] && p == ClearField(ids[k], Rejection(ids[k]));
        if k > 0 {
          assert !ok[1..][k - 1] && p == ClearField(ids[1..][k - 1], Rejection(ids[1..][k - 1]));
        }
      }
    }
  }

  /** The timers come in the order their fields were checked. */
  lemma {:induction false} SelectInOrder(ids: seq<FieldId>, ok: seq<bool>)
    requires |ok| == |ids| && Ascending(ids)
    ensures Ascending(FieldsOf(Select(ids, ok)))
  {
    if ids != [] {
      var rest := Select(ids[1..], ok[1..]);
      SelectInOrder(ids[1..], ok[1..]);
      if !ok[0] {
        forall p | p in rest
          ensures Rank(ids[0]) < Rank(p.field)
        {
          SelectExactly(ids[1..], ok[1..], p);
        }
        PrependAscending(ClearField(ids[0], Rejection(ids[0])), rest);
      }
    }
  }

  /** A timer for a field checked before all the others keeps the order. */
  lemma PrependAscending(first: Pending, rest: seq<Pending>)
    requires Ascending(FieldsOf(rest))
    requires forall p | p in rest :: Rank(first.field) < Rank(p.field)
    ensures Ascending(FieldsOf([first] + rest))
  {
    var r := [first] + rest;
    var fr := FieldsOf(rest);
    assert r[1..] == rest;
    var f := FieldsOf(r);
    assert f == [first.field] + fr;
    forall i, j | 0 <= i < j < |f|
      ensures Rank(f[i]) < Rank(f[j])
    {
      assert f[j] == fr[j - 1] == rest[j - 1].field;
      if i == 0 {
        assert rest[j - 1] in rest;
      } else {
        assert f[i] == fr[i - 1];
      }
    }
  }

  /** Exactly the rejected fields among `ids` get a timer, each with its own message. */
  lemma RejectionsExactly(fs: Fields, ids: seq<FieldId>, p: Pending)
    ensures p in Rejections(fs, ids) <==>
            p.field in ids && !Accepts(p.field, fs.Get(p.field).value) && p.message == Rejection(p.field)
  {
    var ok := Verdicts(fs, ids);
    SelectExactly(ids, ok, p);
    if p.field in ids && !Accepts(p.field, fs.Get(p.field).value) && p.message == Rejection(p.field) {
      var k :| 0 <= k < |ids| && ids[k] == p.field;
      assert !ok[k] && p == ClearField(ids[k], Rejection(ids[k]));
    }
  }

  /** The timers follow the order in which the fields were checked. */
  lemma RejectionsInOrder(fs: Fields, ids: seq<FieldId>)
    requires Ascending(ids)
    ensures Ascending(FieldsOf(Rejections(fs, ids)))
  {
    SelectInOrder(ids, Verdicts(fs, ids));
  }

  /** `validateForm`: every field is checked, none is skipped after a failure. */
  function ValidateForm(fs: Fields): (r: Validation)
    ensures r.ok <==> AllAccepted(fs)
    ensures forall id: FieldId :: r.fields.Get(id).error <==> !Accepts(id, fs.Get(id).value)
    ensures forall id: FieldId :: r.fields.Get(id) == fs.Get(id).(error := r.fields.Get(id).error)
    ensures forall p :: p in r.pending <==> !Accepts(p.field, fs.Get(p.field).value) && p.message == Rejection(p.field)
    ensures Ascending(FieldsOf(r.pending))
  {
    var pending := Rejections(fs, CheckOrder);
    ValidateFormFacts(fs);
    MarkedFields(fs);
    Validation(pending == [], Marked(fs), pending)
  }

  /** The values the submit handler reads back are the trimmed ones; they pass
      exactly the checks the untrimmed values passed. */
  lemma AcceptsTrimmed(id: FieldId, v: string)
    ensures Accepts(id, Trim(v)) <==> Accepts(id, v)
  {
    TrimIdempotent(v);
  }

  /** The four fields after their checks. */
  function Marked(fs: Fields): Fields {
    Fields(Mark(fs, FullName), Mark(fs, Email), Mark(fs, Country), Mark(fs, Phone))
  }

  lemma MarkedFields(fs: Fields)
    ensures forall id: FieldId :: Marked(fs).Get(id) == fs.Get(id).(error := !Accepts(id, fs.Get(id).value))
  {
    forall id: FieldId
      ensures Marked(fs).Get(id) == fs.Get(id).(error := !Accepts(id, fs.Get(id).value))
    {
      assert Marked(fs).Get(id) == Mark(fs, id);
    }
  }

  lemma ValidateFormFacts(fs: Fields)
    ensures var pending := Rejections(fs, CheckOrder);
            && (forall p :: p in pending <==> !Accepts(p.field, fs.Get(p.field).value) && p.message == Rejection(p.field))
            && Ascending(FieldsOf(pending))
            && (pending == [] <==> AllAccepted(fs))
  {
    var pending := Rejections(fs, CheckOrder);
    CheckOrderComplete();
    forall p ensures p in pending <==> !Accepts(p.field, fs.Get(p.field).value) && p.message == Rejection(p.field) {
      RejectionsExactly(fs, CheckOrder, p);
    }
    RejectionsInOrder(fs, CheckOrder);
    if !AllAccepted(fs) {
      var id: FieldId :| !Accepts(id, fs.Get(id).value);
      assert ClearField(id, Rejection(id)) in pending;
    }
  }

  /** Submission checks every field. */
  lemma CheckOrderComplete()
    ensures forall id: FieldId :: id in CheckOrder
  {
    forall id: FieldId ensures id in CheckOrder {
      assert CheckOrder[Rank(id)] == id;
    }
  }

  /** The error flags a form carried before submission do not influence the outcome. */
  lemma ValidateIgnoresOldErrors(fs: Fields, gs: Fields)
    requires forall id: FieldId :: gs.Get(id) == fs.Get(id).(error := gs.Get(id).error)
    ensures ValidateForm(gs) == ValidateForm(fs)
  {
    SameValuesSameRejections(fs, gs, CheckOrder);
    assert Mark(gs, FullName) == Mark(fs, FullName);
    assert Mark(gs, Email) == Mark(fs, Email);
    assert Mark(gs, Country) == Mark(fs, Country);
    assert Mark(gs, Phone) == Mark(fs, Phone);
  }

  lemma SameValuesSameRejections(fs: Fields, gs: Fields, ids: seq<FieldId>)
    requires forall id: FieldId :: gs.Get(id).value == fs.Get(id).value
    ensures Rejections(gs, ids) == Rejections(fs, ids)
  {
    assert Verdicts(gs, ids) == Verdicts(fs, ids);
  }

  /** The timer firing: the value is emptied and the message shown. */
  function ApplyPending(fs: Fields, p: Pending): (r: Fields)
    ensures r.Get(p.field).value == "" && r.Get(p.field).placeholder == p.message
    ensures r.Get(p.field).error == fs.Get(p.field).error
    ensures forall other | other != p.field :: r.Get(other) == fs.Get(other)
  {
    var f := fs.Get(p.field);
    fs.Set(p.field, f.(value := "", placeholder := p.message))
  }

  /** The focus handler: a field in error loses the `error` class and gets its
      original placeholder back; a field not in error is left alone. */
  function Focus(fs: Fields, id: FieldId): (r: Fields)
    ensures !r.Get(id).error
    ensures fs.Get(id).error ==> r.Get(id).placeholder == fs.Get(id).original
    ensures !fs.Get(id).error ==> r == fs
    ensures r.Get(id).value == fs.Get(id).value
    ensures forall other | other != id :: r.Get(other) == fs.Get(other)
  {
    var f := fs.Get(id);
    if f.error then fs.Set(id, f.(error := false, placeholder := f.original)) else fs
  }

  /** `form.reset()`: every value back to empty; classes and placeholders stay. */
  function Reset(fs: Fields): (r: Fields)
    ensures forall id: FieldId :: r.Get(id) == fs.Get(id).(value := "")
  {
    Fields(fs.name.(value := ""), fs.email.(value := ""),
           fs.country.(value := ""), fs.phone.(value := ""))
  }

  /** A rejected field whose timer fires before the user focuses it ends up
      empty, out of error and with its original placeholder back. */
  lemma RejectedFieldRecoversOnFocus(fs: Fields, id: FieldId)
    requires !Accepts(id, fs.Get(id).value)
    ensures var v := ValidateForm(fs);
            var after := Focus(ApplyPending(v.fields, ClearField(id, Rejection(id))), id);
            after.Get(id) == Field("", fs.Get(id).original, fs.Get(id).original, false)
  {
  }

  /** Focusing a rejected field before its timer fires reverses the order of
      the two effects: the field leaves the error state first, and the timer
      then shows the rejection message on a field that is no longer in error,
      which a later focus does not undo. */
  lemma FocusBeforeTimerKeepsMessage(fs: Fields, id: FieldId)
    requires !Accepts(id, fs.Get(id).value)
    ensures var v := ValidateForm(fs);
            var early := ApplyPending(Focus(v.fields, id), ClearField(id, Rejection(id)));
            && !early.Get(id).error
            && early.Get(id).placeholder == Rejection(id)
            && Focus(early, id) == early
  {
  }

  /** An emptied form is rejected in every field. */
  lemma EmptyFormRejected(fs: Fields)
    requires forall id: FieldId :: fs.Get(id).value == ""
    ensures forall id: FieldId :: !Accepts(id, fs.Get(id).value)
    ensures var v := ValidateForm(fs);
            !v.ok && forall id: FieldId :: v.fields.Get(id).error && ClearField(id, Rejection(id)) in v.pending
  {
    assert Trim("") == "";
    EmailCharacterization("");
    assert DigitsOnly("") == "";
  }
}

=== FILE: modal.dfy ===
/** The confirmation modal: `showModal`, `hideModal`, `startModalCountdown`
    and the three close handlers, as a state machine over an explicit set of
    live browser timers. */
module ModalController {
  import opened Wrappers
  import opened Text

  /** A handle returned by `setInterval` or `setTimeout`; both come from one
      pool of increasing numbers. */
  type TimerId = nat

  /** Who the confirmation is for. */
  datatype Guest = Guest(name: string, country: string, email: string)

  /** The modal and the timers its countdowns left behind.
      - `shown`, `animate`: the `show` class on the modal, the `animate` class on its icon;
      - `intervals`: every live countdown interval, with the `seconds` its closure holds;
      - `timeouts`: every live backup timeout, with the interval its closure clears;
      - `modalTimer`: the one global handle `hideModal` clears (`undefined` at load);
      - `countdownText`, `message`, `guest`: what the modal currently displays;
      - `nextId`: a handle above every one handed out so far; the model draws fresh
        handles from it. The page's other timers share the pool, so real handles
        may be farther apart, which no property here depends on. */
  datatype Modal = Modal(
    shown: bool,
    animate: bool,
    intervals: map<TimerId, int>,
    timeouts: map<TimerId, TimerId>,
    modalTimer: Option<TimerId>,
    countdownText: string,
    message: string,
    guest: Guest,
    nextId: TimerId)

  /** The page as loaded: hidden, no timer started yet. */
  const Initial := Modal(false, false, map[], map[], None, "", "", Guest("", "", ""), 1)

  /** The length of a countdown, in one-second ticks. */
  const CountdownSeconds := 5

  /** The countdown line for `seconds` seconds left. */
  function CountdownText(seconds: int): string {
    "Closing in " + IntToDecimal(seconds) + " seconds..."
  }

  /** The personalised greeting line. */
  function Welcome(name: string): string {
    "Welcome to Celldown, " + name + "!"
  }

  /** Decorative animation runs only when neither the page's reduce-motion
      toggle nor the platform's `prefers-reduced-motion` asks otherwise. */
  predicate MotionAllowed(reduceMotion: bool, prefersReduced: bool) {
    !reduceMotion && !prefersReduced
  }

  /** `hideModal`: drop `show` and `animate` and cancel the timeout held in
      `modalTimer`. Countdown intervals are not touched, and `modalTimer`
      still names the (now cancelled) handle. */
  function Hide(m: Modal): (r: Modal)
    ensures !r.shown && !r.animate
    ensures r.intervals == m.intervals
    ensures forall t :: t in r.timeouts <==> t in m.timeouts && m.modalTimer != Some(t)
    ensures forall t | t in r.timeouts :: r.timeouts[t] == m.timeouts[t]
    ensures r.modalTimer == m.modalTimer && r.nextId == m.nextId
    ensures r.countdownText == m.countdownText && r.message == m.message && r.guest == m.guest
  {
    var live := if m.modalTimer.Some? then m.timeouts - {m.modalTimer.value} else m.timeouts;
    m.(shown := false, animate := false, timeouts := live)
  }

  /** Closing twice is closing once. */
  lemma HideIdempotent(m: Modal)
    ensures Hide(Hide(m)) == Hide(m)
  {
  }

  /** `startModalCountdown`: a fresh interval whose closure holds 5 seconds,
      and a fresh backup timeout, whose handle overwrites `modalTimer`. */
  function StartCountdown(m: Modal): (r: Modal)
    ensures r.countdownText == CountdownText(CountdownSeconds)
    ensures r.intervals.Keys == m.intervals.Keys + {m.nextId}
    ensures r.intervals[m.nextId] == CountdownSeconds
    ensures r.timeouts.Keys == m.timeouts.Keys + {m.nextId + 1}
    ensures r.timeouts[m.nextId + 1] == m.nextId
    ensures r.modalTimer == Some(m.nextId + 1) && r.nextId == m.nextId + 2
    ensures forall i | i in m.intervals && i != m.nextId :: r.intervals[i] == m.intervals[i]
    ensures forall t | t in m.timeouts && t != m.nextId + 1 :: r.timeouts[t] == m.timeouts[t]
    ensures r.shown == m.shown && r.animate == m.animate
    ensures r.message == m.message && r.guest == m.guest
  {
    var interval := m.nextId;
    var backup := m.nextId + 1;
    m.(countdownText := CountdownText(CountdownSeconds),
       intervals := m.intervals[interval := CountdownSeconds],
       timeouts := m.timeouts[backup := interval],
       modalTimer := Some(backup),
       nextId := m.nextId + 2)
  }

  /** `showModal(name, country, email)`: personalise, start the icon animation
      when motion is allowed (an animation already running is not stopped),
      show, and start a countdown. */
  function Show(m: Modal, g: Guest, reduceMotion: bool, prefersReduced: bool): (r: Modal)
    ensures r.shown && r.guest == g && r.message == Welcome(g.name)
    ensures r.animate <==> m.animate || MotionAllowed(reduceMotion, prefersReduced)
  {
    var personalised := m.(message := Welcome(g.name), guest := g);
    var animated := personalised.(animate := m.animate || MotionAllowed(reduceMotion, prefersReduced));
    StartCountdown(animated.(shown := true))
  }

  /** One second of interval `id`: its `seconds` goes down by one and is
      displayed; at zero the interval clears itself and calls `hideModal`.
      A cleared interval never fires again. */
  function Tick(m: Modal, id: TimerId): (r: Modal)
    ensures id !in m.intervals ==> r == m
    ensures id in m.intervals && m.intervals[id] > 1 ==>
              && r.intervals == m.intervals[id := m.intervals[id] - 1]
              && r.countdownText == CountdownText(m.intervals[id] - 1)
              && r.shown == m.shown && r.timeouts == m.timeouts && r.modalTimer == m.modalTimer
    ensures id in m.intervals && m.intervals[id] <= 1 ==>
              && r.intervals == m.intervals - {id}
              && r.countdownText == CountdownText(m.intervals[id] - 1)
              && !r.shown && !r.animate
              && (m.modalTimer.Some? ==> m.modalTimer.value !in r.timeouts)
  {
    if id !in m.intervals then m
    else
      var seconds := m.intervals[id] - 1;
      var shownText := m.(countdownText := CountdownText(seconds));
      if seconds <= 0 then Hide(shownText.(intervals := m.intervals - {id}))
      else shownText.(intervals := m.intervals[id := seconds])
  }

  /** Backup timeout `id` firing: it is spent, it clears the interval started
      alongside it, and it calls `hideModal`. */
  function FireBackup(m: Modal, id: TimerId): (r: Modal)
    ensures id !in m.timeouts ==> r == m
    ensures id in m.timeouts ==>
              && id !in r.timeouts
              && r.intervals == m.intervals - {m.timeouts[id]}
              && !r.shown && !r.animate
              && (m.modalTimer.Some? ==> m.modalTimer.value !in r.timeouts)
              && r.countdownText == m.countdownText
    ensures id in m.timeouts ==>
              && r.modalTimer == m.modalTimer
              && forall t | t in m.timeouts && t != id && m.modalTimer != Some(t) ::
                   t in r.timeouts && r.timeouts[t] == m.timeouts[t]
  {
    if id !in m.timeouts then m
    else Hide(m.(timeouts := m.timeouts - {id}, intervals := m.intervals - {m.timeouts[id]}))
  }

  /** What can happen to the modal: the submit flow opens it, a timer fires,
      or the user presses the close button, presses Escape, or clicks on the
      modal (`targetIsModal` when the click landed on the backdrop itself
      rather than on its content). */
  datatype Event =
    | Open(guest: Guest, reduceMotion: bool, prefersReduced: bool)
    | IntervalTick(interval: TimerId)
    | TimeoutFire(timeout: TimerId)
    | CloseButton
    | Escape
    | BackdropClick(targetIsModal: bool)

  function Step(m: Modal, e: Event): (r: Modal)
    ensures r.shown ==> m.shown || e.Open?
    ensures !e.Open? ==> r.nextId == m.nextId && r.guest == m.guest && r.message == m.message
    ensures !e.Open? ==> r.intervals.Keys <= m.intervals.Keys && r.timeouts.Keys <= m.timeouts.Keys
    ensures e.CloseButton? || e.Escape? || e.BackdropClick? ==> r.intervals == m.intervals
    ensures e == BackdropClick(false) || (e == Escape && !m.shown) ==> r == m
  {
    match e
    case Open(g, reduceMotion, prefersReduced) => Show(m, g, reduceMotion, prefersReduced)
    case IntervalTick(id) => Tick(m, id)
    case TimeoutFire(id) => FireBackup(m, id)
    case CloseButton => Hide(m)
    case Escape => if m.shown then Hide(m) else m
    case BackdropClick(targetIsModal) => if targetIsModal then Hide(m) else m
  }

  function Run(m: Modal, events: seq<Event>): Modal
    decreases |events|
  {
    if events == [] then m else Run(Step(m, events[0]), events[1..])
  }

  /** What every reachable state satisfies:
      - every live handle was handed out already, and interval and timeout handles differ;
      - a live interval holds between 1 and 5 seconds;
      - each backup timeout is the handle right after the interval it clears;
      - the icon animates only while the modal is shown;
      - the modal is shown exactly when the timeout in `modalTimer` is still
        pending, and then the interval started with it is still live too. */
  ghost predicate Inv(m: Modal) {
    && (forall i | i in m.intervals :: i < m.nextId && 1 <= m.intervals[i] <= CountdownSeconds)
    && (forall t | t in m.timeouts :: t < m.nextId && m.timeouts[t] + 1 == t && t !in m.intervals)
    && (m.modalTimer.Some? ==> m.modalTimer.value < m.nextId)
    && (m.animate ==> m.shown)
    && (m.shown <==> m.modalTimer.Some? && m.modalTimer.value in m.timeouts)
    && (m.shown ==> m.timeouts[m.modalTimer.value] in m.intervals)
  }

  lemma InitialInv()
    ensures Inv(Initial)
  {
  }

  lemma StepPreservesInv(m: Modal, e: Event)
    requires Inv(m)
    ensures Inv(Step(m, e))
  {
    match e
    case Open(g, reduceMotion, prefersReduced) => ShowPreservesInv(m, g, reduceMotion, prefersReduced);
    case IntervalTick(id) => TickPreservesInv(m, id);
    case TimeoutFire(id) => FireBackupPreservesInv(m, id);
    case CloseButton => HidePreservesInv(m);
    case Escape => HidePreservesInv(m);
    case BackdropClick(b) => HidePreservesInv(m);
  }

  lemma HidePreservesInv(m: Modal)
    requires Inv(m)
    ensures Inv(Hide(m))
  {
  }

  lemma ShowPreservesInv(m: Modal, g: Guest, reduceMotion: bool, prefersReduced: bool)
    requires Inv(m)
    ensures Inv(Show(m, g, reduceMotion, prefersReduced))
  {
    var r := Show(m, g, reduceMotion, prefersReduced);
    assert r.modalTimer == Some(m.nextId + 1);
  }

  /** Removing interval `id` and then hiding keeps the invariant, even when
      `id` is the interval of the countdown on screen. */
  lemma HideWithoutInterval(m: Modal, id: TimerId, text: string)
    requires Inv(m)
    ensures Inv(Hide(m.(countdownText := text, intervals := m.intervals - {id})))
  {
  }

  lemma TickPreservesInv(m: Modal, id: TimerId)
    requires Inv(m)
    ensures Inv(Tick(m, id))
  {
    if id in m.intervals && m.intervals[id] - 1 <= 0 {
      HideWithoutInterval(m, id, CountdownText(m.intervals[id] - 1));
    }
  }

  lemma FireBackupPreservesInv(m: Modal, id: TimerId)
    requires Inv(m)
    ensures Inv(FireBackup(m, id))
  {
  }

  /** Every state reachable from the loaded page satisfies the invariant. */
  lemma {:induction false} RunPreservesInv(m: Modal, events: seq<Event>)
    requires Inv(m)
    ensures Inv(Run(m, events))
    decreases |events|
  {
    if events != [] {
      StepPreservesInv(m, events[0]);
      RunPreservesInv(Step(m, events[0]), events[1..]);
    }
  }

  /** Opening starts a countdown from 5 on a fresh interval, with a fresh
      backup timeout in `modalTimer`, and leaves every earlier timer running. */
  lemma OpenStartsCountdown(m: Modal, g: Guest, reduceMotion: bool, prefersReduced: bool)
    requires Inv(m)
    ensures var r := Step(m, Open(g, reduceMotion, prefersReduced));
            var interval, backup := m.nextId, m.nextId + 1;
            && r.shown && r.guest == g
            && r.countdownText == "Closing in 5 seconds..."
            && interval !in m.intervals && r.intervals[interval] == 5
            && backup !in m.timeouts && r.modalTimer == Some(backup) && r.timeouts[backup] == interval
            && (forall i | i in m.intervals :: i in r.intervals && r.intervals[i] == m.intervals[i])
            && (forall t | t in m.timeouts :: t in r.timeouts && r.timeouts[t] == m.timeouts[t])
  {
    assert IntToDecimal(5) == "5";
  }

  /** `count` ticks of one interval. */
  function Ticks(id: TimerId, count: nat): (es: seq<Event>)
    ensures |es| == count && forall k | 0 <= k < count :: es[k] == IntervalTick(id)
  {
    if count == 0 then [] else [IntervalTick(id)] + Ticks(id, count - 1)
  }

  /** One tick of an interval with more than a second left only decrements it
      and shows the new value. */
  lemma TickOnce(m: Modal, id: TimerId)
    requires id in m.intervals && m.intervals[id] > 1
    ensures Tick(m, id) == m.(intervals := m.intervals[id := m.intervals[id] - 1],
                              countdownText := CountdownText(m.intervals[id] - 1))
  {
  }

  lemma RunTicksUnfold(m: Modal, id: TimerId, count: nat)
    requires count > 0
    ensures Run(m, Ticks(id, count)) == Run(Tick(m, id), Ticks(id, count - 1))
  {
    var es := Ticks(id, count);
    assert es[0] == IntervalTick(id);
    assert es[1..] == Ticks(id, count - 1);
  }

  /** Each tick takes exactly one second off the interval and shows the new
      value; nothing else changes until the interval reaches zero. */
  lemma {:induction false} TicksCountDown(m: Modal, id: TimerId, count: nat)
    requires id in m.intervals && count < m.intervals[id]
    ensures var r := Run(m, Ticks(id, count));
            r == m.(intervals := m.intervals[id := m.intervals[id] - count],
                    countdownText := if count == 0 then m.countdownText
                                     else CountdownText(m.intervals[id] - count))
    decreases count
  {
    if count == 0 {
      assert m.intervals[id := m.intervals[id]] == m.intervals;
    } else {
      RunTicksUnfold(m, id, count);
      TickOnce(m, id);
      var next := Tick(m, id);
      TicksCountDown(next, id, count - 1);
      assert next.intervals[id := next.intervals[id] - (count - 1)]
          == m.intervals[id := m.intervals[id] - count];
    }
  }

  /** The current countdown runs to zero: after as many ticks as it has
      seconds left the modal is hidden, the interval is gone, the backup
      timeout has been cancelled by `hideModal`, and neither timer can close
      the modal a second time. */
  lemma CountdownCloses(m: Modal)
    requires Inv(m) && m.shown
    ensures var backup := m.modalTimer.value;
            var interval := m.timeouts[backup];
            var r := Run(m, Ticks(interval, m.intervals[interval]));
            && !r.shown && !r.animate
            && interval !in r.intervals && backup !in r.timeouts
            && r.countdownText == "Closing in 0 seconds..."
            && Step(r, TimeoutFire(backup)) == r
            && Step(r, IntervalTick(interval)) == r
  {
    var backup := m.modalTimer.value;
    var interval := m.timeouts[backup];
    var n := m.intervals[interval];
    TicksCountDown(m, interval, n - 1);
    var before := Run(m, Ticks(interval, n - 1));
    assert before.intervals[interval] == 1;
    RunLastTick(m, interval, n);
    LastTick(before, interval);
  }

  /** The last of `count` ticks comes after the first `count - 1`. */
  lemma RunLastTick(m: Modal, id: TimerId, count: nat)
    requires count > 0
    ensures Run(m, Ticks(id, count)) == Tick(Run(m, Ticks(id, count - 1)), id)
  {
    var before := Run(m, Ticks(id, count - 1));
    assert Run(before, [IntervalTick(id)]) == Tick(before, id);
    TicksSnoc(id, count);
    RunAppend(m, Ticks(id, count - 1), [IntervalTick(id)]);
  }

  lemma {:induction false} TicksSnoc(id: TimerId, count: nat)
    requires count > 0
    ensures Ticks(id, count) == Ticks(id, count - 1) + [IntervalTick(id)]
    decreases count
  {
    if count > 1 {
      TicksSnoc(id, count - 1);
    }
  }

  /** Running two event sequences one after the other. */
  lemma {:induction false} RunAppend(m: Modal, first: seq<Event>, second: seq<Event>)
    ensures Run(m, first + second) == Run(Run(m, first), second)
    decreases |first|
  {
    if first != [] {
      assert (first + second)[0] == first[0];
      assert (first + second)[1..] == first[1..] + second;
      RunAppend(Step(m, first[0]), first[1..], second);
    } else {
      assert first + second == second;
    }
  }

  /** Opening and letting the five ticks run closes the modal exactly once:
      the backup timeout was cancelled on the way and fires no second close. */
  lemma OpenThenFiveTicks(m: Modal, g: Guest, reduceMotion: bool, prefersReduced: bool)
    requires Inv(m)
    ensures var started := Step(m, Open(g, reduceMotion, prefersReduced));
            var r := Run(started, Ticks(m.nextId, 5));
            && !r.shown && !r.animate
            && m.nextId !in r.intervals && m.nextId + 1 !in r.timeouts
            && Step(r, TimeoutFire(m.nextId + 1)) == r
  {
    var started := Step(m, Open(g, reduceMotion, prefersReduced));
    OpenStartsCountdown(m, g, reduceMotion, prefersReduced);
    StepPreservesInv(m, Open(g, reduceMotion, prefersReduced));
    CountdownCloses(started);
  }

  /** The backup timeout firing first also closes exactly once: it takes
      the interval with it, so no later tick reopens or re-closes anything. */
  lemma BackupCloses(m: Modal)
    requires Inv(m) && m.shown
    ensures var backup := m.modalTimer.value;
            var interval := m.timeouts[backup];
            var r := Step(m, TimeoutFire(backup));
            && !r.shown && !r.animate
            && interval !in r.intervals && backup !in r.timeouts
            && Step(r, IntervalTick(interval)) == r
            && Step(r, TimeoutFire(backup)) == r
  {
  }

  /** The close button, Escape and a click on the backdrop hide the modal; a
      click on its content does nothing; and on a hidden modal all of them
      change nothing at all. None of them stops a running interval. */
  lemma CloseTriggers(m: Modal)
    requires Inv(m)
    ensures !Step(m, CloseButton).shown && !Step(m, Escape).shown && !Step(m, BackdropClick(true)).shown
    ensures Step(m, BackdropClick(false)) == m
    ensures Step(m, CloseButton).intervals == m.intervals && Step(m, Escape).intervals == m.intervals
    ensures Step(m, BackdropClick(true)).intervals == m.intervals
    ensures !m.shown ==> Step(m, CloseButton) == m && Step(m, Escape) == m && Step(m, BackdropClick(true)) == m
  {
    if !m.shown && m.modalTimer.Some? {
      assert m.timeouts - {m.modalTimer.value} == m.timeouts;
    }
  }

  /** Opening while a countdown is running does not stop it: the earlier
      interval and the earlier backup timeout stay live next to the new ones,
      and only the new timeout is reachable through `modalTimer`. */
  lemma ReopenKeepsEarlierTimers(m: Modal, g: Guest, reduceMotion: bool, prefersReduced: bool)
    requires Inv(m) && m.shown
    ensures var earlier := m.modalTimer.value;
            var r := Step(m, Open(g, reduceMotion, prefersReduced));
            && earlier in r.timeouts && r.modalTimer != Some(earlier)
            && m.timeouts[earlier] in r.intervals && r.intervals.Keys == m.intervals.Keys + {m.nextId}
  {
  }

  /** An earlier opening's backup timeout closes a later opening early, and
      in doing so cancels that opening's own backup timeout, while the later
      opening's interval keeps counting in the hidden modal. */
  lemma StaleTimeoutClosesLaterOpening(m: Modal, g: Guest, reduceMotion: bool, prefersReduced: bool)
    requires Inv(m) && m.shown
    ensures var earlier := m.modalTimer.value;
            var reopened := Step(m, Open(g, reduceMotion, prefersReduced));
            var r := Step(reopened, TimeoutFire(earlier));
            && !r.shown && r.guest == g
            && m.nextId + 1 !in r.timeouts
            && m.nextId in r.intervals && r.intervals[m.nextId] == 5
  {
  }

  /** An interval left running by a manual close still calls `hideModal`
      when it reaches zero, and so closes the next opening after it. */
  lemma StaleIntervalClosesLaterOpening(m: Modal, stale: TimerId, g: Guest, reduceMotion: bool, prefersReduced: bool)
    requires Inv(m) && stale in m.intervals && m.intervals[stale] == 1
    ensures var r := Run(m, [CloseButton, Open(g, reduceMotion, prefersReduced), IntervalTick(stale)]);
            && !r.shown && r.guest == g
            && stale !in r.intervals
            && m.nextId in r.intervals && r.intervals[m.nextId] == 5
            && r.countdownText == "Closing in 0 seconds..."
  {
    var closed := Step(m, CloseButton);
    var reopened := Step(closed, Open(g, reduceMotion, prefersReduced));
    ShowIntervals(closed, g, reduceMotion, prefersReduced);
    assert reopened.intervals == m.intervals[m.nextId := CountdownSeconds];
    var r := Step(reopened, IntervalTick(stale));
    LastTick(reopened, stale);
    RunThree(m, CloseButton, Open(g, reduceMotion, prefersReduced), IntervalTick(stale));
  }

  lemma ShowIntervals(m: Modal, g: Guest, reduceMotion: bool, prefersReduced: bool)
    ensures Show(m, g, reduceMotion, prefersReduced).intervals == m.intervals[m.nextId := CountdownSeconds]
  {
  }

  /** The last second of an interval removes it and calls `hideModal`. */
  lemma LastTick(m: Modal, id: TimerId)
    requires id in m.intervals && m.intervals[id] == 1
    ensures var r := Tick(m, id);
            && r == Hide(m.(countdownText := r.countdownText, intervals := m.intervals - {id}))
            && r.countdownText == "Closing in 0 seconds..."
  {
    assert IntToDecimal(0) == "0";
  }

  lemma RunThree(m: Modal, a: Event, b: Event, c: Event)
    ensures Run(m, [a, b, c]) == Step(Step(Step(m, a), b), c)
  {
    var m1 := Step(m, a);
    var m2 := Step(m1, b);
    assert [a, b, c][1..] == [b, c];
    assert [b, c][1..] == [c];
    assert Run(m, [a, b, c]) == Run(m1, [b, c]);
    assert Run(m1, [b, c]) == Run(m2, [c]);
    assert Run(m2, [c]) == Run(Step(m2, c), []);
  }
}

=== FILE: registry.dfy ===
/** `addParticipant`: the page's participant counter and the list of rows it
    appends to. */
module Registry {

  /** The counter (`participantCount`) next to the rows added since page load.
      `seed` is the number the counter started from, read from the page. */
  datatype Registry = Registry(seed: int, count: int, rows: seq<string>)

  /** Every row added so far was counted, and nothing else. */
  predicate Valid(reg: Registry) {
    reg.count == reg.seed + |reg.rows|
  }

  /** The page as loaded: the counter shows `seed` and no row has been added. */
  function Init(seed: int): (r: Registry)
    ensures Valid(r) && r.count == seed && r.rows == []
  {
    Registry(seed, seed, [])
  }

  /** The text of a participant row: a no-phones emoji, the name, "from", the place. */
  function RowText(name: string, location: string): (row: string)
    ensures |row| == |name| + |location| + 8
    ensures row[..2] == "\U{1F4F5} " && row[2..2 + |name|] == name
    ensures row[2 + |name|..2 + |name| + 6] == " from "
    ensures row[|row| - |location|..] == location
  {
    "\U{1F4F5} " + name + " from " + location
  }

  /** `addParticipant(name, location)`: one more row at the end and the counter up by one. */
  function AddParticipant(reg: Registry, name: string, location: string): (r: Registry)
    ensures r.seed == reg.seed && r.count == reg.count + 1
    ensures |r.rows| == |reg.rows| + 1
    ensures r.rows[..|reg.rows|] == reg.rows
    ensures r.rows[|reg.rows|] == RowText(name, location)
    ensures Valid(reg) ==> Valid(r)
  {
    Registry(reg.seed, reg.count + 1, reg.rows + [RowText(name, location)])
  }

  /** The rows a sequence of confirmations produces, in submission order. */
  function Rows(people: seq<(string, string)>): (rows: seq<string>)
    ensures |rows| == |people|
  {
    if people == [] then []
    else [RowText(people[0].0, people[0].1)] + Rows(people[1..])
  }

  /** Confirming each of `people` in turn. */
  function AddAll(reg: Registry, people: seq<(string, string)>): Registry
    decreases |people|
  {
    if people == [] then reg
    else AddAll(AddParticipant(reg, people[0].0, people[0].1), people[1..])
  }

  /** The list only ever grows at its end, one row per confirmation, with no
      reordering and no merging of repeated names, and the counter keeps
      pace with it. */
  lemma {:induction false} AddAllAppends(reg: Registry, people: seq<(string, string)>)
    ensures AddAll(reg, people).rows == reg.rows + Rows(people)
    ensures AddAll(reg, people).count == reg.count + |people|
    ensures AddAll(reg, people).seed == reg.seed
    ensures Valid(reg) ==> Valid(AddAll(reg, people))
    decreases |people|
  {
    if people != [] {
      var next := AddParticipant(reg, people[0].0, people[0].1);
      AddAllAppends(next, people[1..]);
      assert Rows(people) == [RowText(people[0].0, people[0].1)] + Rows(people[1..]);
    }
  }

  /** Registering the same person twice yields two identical rows and a count of two more. */
  lemma DuplicatesKept(reg: Registry, name: string, location: string)
    ensures var r := AddParticipant(AddParticipant(reg, name, location), name, location);
            && r.count == reg.count + 2
            && r.rows == reg.rows + [RowText(name, location), RowText(name, location)]
  {
  }

  /** A row does not always determine who it was for: " from " may itself
      occur in a name or a place, as in "Ann from Rome" from "Oslo" and "Ann"
      from "Rome from Oslo". */
  lemma RowTextAmbiguous(a: string, b: string, c: string)
    ensures RowText(a + " from " + b, c) == RowText(a, b + " from " + c)
  {
    assert "\U{1F4F5} " + (a + " from " + b) + " from " + c
        == "\U{1F4F5} " + a + " from " + (b + " from " + c);
  }
}

=== FILE: submission.dfy ===
/** The RSVP form's submit handler: validate, then register the guest, open
    the confirmation modal and clear the form. */
module Submission {
  import opened Text
  import opened Form
  import Registry
  import opened ModalController

  /** Everything the submit handler reads or changes: the form, the
      participant list, the modal, and the placeholder timers scheduled by
      earlier validations that have not fired yet. */
  datatype App = App(fields: Fields, registry: Registry.Registry, modal: Modal, pending: seq<Pending>)

  /** The submit handler. A rejected form changes only the fields' error
      marks and schedules their timers. An accepted one registers the
      trimmed name and country, opens the modal for the trimmed name, country
      and email, and empties the form. The simulated 1.5 s wait between the
      two halves is not modelled: the values are read as they were validated. */
  function Submit(app: App, reduceMotion: bool, prefersReduced: bool): (r: App)
    ensures var v := ValidateForm(app.fields);
            !AllAccepted(app.fields) ==>
              && r.registry == app.registry && r.modal == app.modal
              && r.fields == v.fields && r.pending == app.pending + v.pending
    ensures var name, country, email :=
              Trim(app.fields.name.value), Trim(app.fields.country.value), Trim(app.fields.email.value);
            AllAccepted(app.fields) ==>
              && r.registry == Registry.AddParticipant(app.registry, name, country)
              && r.modal == Step(app.modal, Open(Guest(name, country, email), reduceMotion, prefersReduced))
              && (forall id: FieldId :: r.fields.Get(id).value == "" && !r.fields.Get(id).error)
              && r.pending == app.pending
  {
    var v := ValidateForm(app.fields);
    if !v.ok then
      app.(fields := v.fields, pending := app.pending + v.pending)
    else
      var name := Trim(app.fields.name.value);
      var email := Trim(app.fields.email.value);
      var country := Trim(app.fields.country.value);
      var registry := Registry.AddParticipant(app.registry, name, country);
      var modal := Show(app.modal, Guest(name, country, email), reduceMotion, prefersReduced);
      App(Reset(v.fields), registry, modal, app.pending)
  }

  /** Submitting keeps the counter in step with the list and the modal's
      timers consistent. */
  lemma SubmitPreservesInvariants(app: App, reduceMotion: bool, prefersReduced: bool)
    requires Registry.Valid(app.registry) && Inv(app.modal)
    ensures var r := Submit(app, reduceMotion, prefersReduced);
            Registry.Valid(r.registry) && Inv(r.modal)
  {
    var v := ValidateForm(app.fields);
    if v.ok {
      var name := Trim(app.fields.name.value);
      var email := Trim(app.fields.email.value);
      var country := Trim(app.fields.country.value);
      StepPreservesInv(app.modal, Open(Guest(name, country, email), reduceMotion, prefersReduced));
    }
  }

  /** Once an accepted submit has completed, a second submit finds an empty form:
      it is rejected in all four fields and registers nobody. */
  lemma ResubmitAfterSuccessRejected(app: App, reduceMotion: bool, prefersReduced: bool)
    requires AllAccepted(app.fields)
    ensures var once := Submit(app, reduceMotion, prefersReduced);
            var twice := Submit(once, reduceMotion, prefersReduced);
            && twice.registry == once.registry
            && twice.modal == once.modal
            && forall id: FieldId :: twice.fields.Get(id).error
  {
    var once := Submit(app, reduceMotion, prefersReduced);
    EmptyFormRejected(once.fields);
  }
}

=== FILE: text.dfy ===
/** Character classes and string operations of the JavaScript runtime that the
    RSVP validators rely on: `String.prototype.trim`, the regular-expression
    classes `\s` and `\d`, and the decimal rendering of an integer inside a
    template literal. */
module Text {

  /** ECMAScript white space and line terminators: exactly the characters
      `trim` strips and the class `\s` matches. */
  predicate IsSpace(c: char) {
    var n := c as int;
    || (0x09 <= n <= 0x0D)
    || n == 0x20 || n == 0xA0 || n == 0x1680
    || (0x2000 <= n <= 0x200A)
    || n == 0x2028 || n == 0x2029 || n == 0x202F || n == 0x205F
    || n == 0x3000 || n == 0xFEFF
  }

  /** The class `\d` of a regular expression without the `u` flag: ASCII digits only. */
  predicate IsDigit(c: char) {
    '0' <= c <= '9'
  }

  predicate AllSpace(s: string) {
    forall k | 0 <= k < |s| :: IsSpace(s[k])
  }

  predicate AllDigits(s: string) {
    forall k | 0 <= k < |s| :: IsDigit(s[k])
  }

  /** Neither end of `r` is white space. */
  predicate Trimmed(r: string) {
    r == [] || (!IsSpace(r[0]) && !IsSpace(r[|r| - 1]))
  }

  /** `s` without its leading white space. */
  function TrimStart(s: string): (r: string)
    ensures |r| <= |s|
  {
    if s == [] || !IsSpace(s[0]) then s else TrimStart(s[1..])
  }

  /** `s` without its trailing white space. */
  function TrimEnd(s: string): (r: string)
    ensures |r| <= |s|
  {
    if s == [] || !IsSpace(s[|s| - 1]) then s else TrimEnd(s[..|s| - 1])
  }

  /** `TrimStart` removes a white-space prefix and stops at the first other character. */
  lemma {:induction false} TrimStartSplits(s: string)
    ensures var r := TrimStart(s);
            && r == s[|s| - |r|..]
            && AllSpace(s[..|s| - |r|])
            && (r == [] || !IsSpace(r[0]))
  {
    if s != [] && IsSpace(s[0]) {
      TrimStartSplits(s[1..]);
      var r := TrimStart(s);
      assert s[..|s| - |r|] == [s[0]] + s[1..][..|s| - 1 - |r|];
    }
  }

  /** `TrimEnd` removes a white-space suffix and stops at the last other character. */
  lemma {:induction false} TrimEndSplits(s: string)
    ensures var r := TrimEnd(s);
            && r == s[..|r|]
            && AllSpace(s[|r|..])
            && (r == [] || !IsSpace(r[|r| - 1]))
  {
    if s != [] && IsSpace(s[|s| - 1]) {
      var t := s[..|s| - 1];
      TrimEndSplits(t);
      var r := TrimEnd(s);
      assert r == TrimEnd(t);
      assert s[..|r|] == t[..|r|];
      assert s[|r|..] == t[|r|..] + [s[|s| - 1]];
      assert AllSpace(t[|r|..]);
      forall k | 0 <= k < |s[|r|..]|
        ensures IsSpace(s[|r|..][k])
      {
        if k < |t[|r|..]| {
          assert s[|r|..][k] == t[|r|..][k];
        }
      }
    }
  }

  /** Slicing a suffix of `s` is slicing `s` itself, shifted. */
  lemma SliceOfSuffix(s: string, i: nat, n: nat)
    requires i + n <= |s|
    ensures s[i..][..n] == s[i..i + n]
    ensures s[i..][n..] == s[i + n..]
  {
  }

  /** Where the trimmed part of `s` starts: the number of leading white-space characters. */
  function TrimOffset(s: string): (i: nat)
    ensures i <= |s|
  {
    |s| - |TrimStart(s)|
  }

  /** `String.prototype.trim`. */
  function Trim(s: string): (r: string)
    ensures |r| <= |s| - TrimOffset(s)
  {
    TrimEnd(TrimStart(s))
  }

  /** `Trim(s)` is the middle of `s` between a white-space prefix and a
      white-space suffix, and neither starts nor ends with white space. */
  lemma TrimSplits(s: string)
    ensures var i, r := TrimOffset(s), Trim(s);
            && Trimmed(r)
            && s[i..i + |r|] == r
            && AllSpace(s[..i]) && AllSpace(s[i + |r|..])
  {
    var a := TrimStart(s);
    var r := TrimEnd(a);
    var i := |s| - |a|;
    TrimStartSplits(s);
    TrimEndSplits(a);
    TrimmedMiddle(a, r);
    MiddleOfSuffix(s, a, r, i);
  }

  /** A prefix `r` of the suffix `a == s[i..]` sits at `i` in `s`, and what
      follows it in `a` is what follows it in `s`. */
  lemma MiddleOfSuffix(s: string, a: string, r: string, i: nat)
    requires i <= |s| && a == s[i..] && |r| <= |a| && r == a[..|r|] && AllSpace(a[|r|..])
    ensures s[i..i + |r|] == r && AllSpace(s[i + |r|..])
  {
    SliceOfSuffix(s, i, |r|);
  }

  /** Trimming the end of a string that starts with a non-space character
      leaves a string trimmed at both ends. */
  lemma TrimmedMiddle(a: string, r: string)
    requires a == [] || !IsSpace(a[0])
    requires |r| <= |a| && r == a[..|r|] && (r == [] || !IsSpace(r[|r| - 1]))
    ensures Trimmed(r)
  {
    if r != [] {
      assert r[0] == a[0];
    }
  }

  /** Trimming keeps every non-space character: a string has two non-space
      characters exactly when its trimmed form is at least two long. */
  lemma {:induction false} TrimLengthAtLeastTwo(s: string)
    ensures |Trim(s)| >= 2 <==>
            exists a, b | 0 <= a < b < |s| :: !IsSpace(s[a]) && !IsSpace(s[b])
  {
    var r := Trim(s);
    var i := TrimOffset(s);
    TrimSplits(s);
    if |r| >= 2 {
      assert s[i] == r[0] && s[i + |r| - 1] == r[|r| - 1];
    }
    if exists a, b | 0 <= a < b < |s| :: !IsSpace(s[a]) && !IsSpace(s[b]) {
      var a, b :| 0 <= a < b < |s| && !IsSpace(s[a]) && !IsSpace(s[b]);
      InsideTrim(s, a);
      InsideTrim(s, b);
    }
  }

  /** A non-space character of `s` lies inside its trimmed part. */
  lemma InsideTrim(s: string, k: nat)
    requires k < |s| && !IsSpace(s[k])
    ensures TrimOffset(s) <= k < TrimOffset(s) + |Trim(s)|
  {
    TrimSplits(s);
  }

  /** A character outside the Basic Multilingual Plane, which a JavaScript
      string stores as a surrogate pair of two UTF-16 code units. */
  predicate IsAstral(c: char) {
    c as int >= 0x10000
  }

  /** The JavaScript `length` of `s`: the number of UTF-16 code units. */
  function Utf16Length(s: string): (n: nat)
    ensures |s| <= n <= 2 * |s|
  {
    if s == [] then 0 else (if IsAstral(s[0]) then 2 else 1) + Utf16Length(s[1..])
  }

  /** A JavaScript length of at least 2 means two characters, or one
      character that takes two code units. */
  lemma Utf16LengthAtLeastTwo(r: string)
    ensures Utf16Length(r) >= 2 <==> |r| >= 2 || (|r| == 1 && IsAstral(r[0]))
  {
    if |r| == 1 {
      assert r[1..] == [];
    }
  }

  /** The trimmed JavaScript length of `s` is at least 2 exactly when `s`
      holds two non-space characters, or one non-space character outside the
      Basic Multilingual Plane. */
  lemma TrimUtf16AtLeastTwo(s: string)
    ensures Utf16Length(Trim(s)) >= 2 <==>
            || (exists a, b | 0 <= a < b < |s| :: !IsSpace(s[a]) && !IsSpace(s[b]))
            || (exists a | 0 <= a < |s| :: !IsSpace(s[a]) && IsAstral(s[a]))
  {
    var r := Trim(s);
    var i := TrimOffset(s);
    TrimLengthAtLeastTwo(s);
    Utf16LengthAtLeastTwo(r);
    TrimSplits(s);
    if |r| == 1 && IsAstral(r[0]) {
      assert s[i] == r[0];
    }
    if exists a | 0 <= a < |s| :: !IsSpace(s[a]) && IsAstral(s[a]) {
      var a :| 0 <= a < |s| && !IsSpace(s[a]) && IsAstral(s[a]);
      InsideTrim(s, a);
      if |r| == 1 {
        assert s[a] == s[i..i + |r|][0];
      }
    }
  }

  /** Trimming a trimmed string changes nothing. */
  lemma TrimIdempotent(s: string)
    ensures Trim(Trim(s)) == Trim(s)
  {
    var r := Trim(s);
    TrimSplits(s);
    assert TrimStart(r) == r;
    assert TrimEnd(r) == r;
  }

  /** `s.replace(/\D/g, '')`: the digits of `s`, in order. */
  function DigitsOnly(s: string): (r: string)
    ensures |r| <= |s| && AllDigits(r)
  {
    if s == [] then []
    else (if IsDigit(s[0]) then [s[0]] else []) + DigitsOnly(s[1..])
  }

  /** Removing non-digits distributes over concatenation. */
  lemma {:induction false} DigitsOnlyAppend(a: string, b: string)
    ensures DigitsOnly(a + b) == DigitsOnly(a) + DigitsOnly(b)
  {
    if a != [] {
      assert (a + b)[0] == a[0];
      assert (a + b)[1..] == a[1..] + b;
      DigitsOnlyAppend(a[1..], b);
    } else {
      assert a + b == b;
    }
  }

  /** A string of digits is left as it is, and one without digits disappears. */
  lemma {:induction false} DigitsOnlyExtremes(s: string)
    ensures AllDigits(s) ==> DigitsOnly(s) == s
    ensures (forall k | 0 <= k < |s| :: !IsDigit(s[k])) ==> DigitsOnly(s) == []
  {
    if s != [] {
      DigitsOnlyExtremes(s[1..]);
      assert s == [s[0]] + s[1..];
    }
  }

  /** White space holds no digits. */
  lemma {:induction false} DigitsOfSpace(s: string)
    requires AllSpace(s)
    ensures DigitsOnly(s) == []
  {
    if s != [] {
      assert !IsDigit(s[0]);
      DigitsOfSpace(s[1..]);
    }
  }

  /** Trimming never changes the digits of a string: `trim` only removes white space. */
  lemma DigitsOnlyTrim(s: string)
    ensures DigitsOnly(Trim(s)) == DigitsOnly(s)
  {
    var r := Trim(s);
    var i := TrimOffset(s);
    var j := i + |r|;
    TrimSplits(s);
    assert s == s[..i] + s[i..j] + s[j..];
    DigitsOnlyAppend(s[..i] + s[i..j], s[j..]);
    DigitsOnlyAppend(s[..i], s[i..j]);
    DigitsOfSpace(s[..i]);
    DigitsOfSpace(s[j..]);
  }

  function DigitChar(d: nat): (c: char)
    requires d < 10
    ensures IsDigit(c) && DigitValue(c) == d
  {
    ('0' as int + d) as char
  }

  function DigitValue(c: char): nat
    requires IsDigit(c)
  {
    (c as int - '0' as int) as nat
  }

  /** The decimal digits of `n`, most significant first, as a template literal
      renders a non-negative integer. */
  function NatToDecimal(n: nat): (r: string)
    ensures r != [] && AllDigits(r)
    ensures |r| > 1 ==> r[0] != '0'
  {
    if n < 10 then [DigitChar(n)] else NatToDecimal(n / 10) + [DigitChar(n % 10)]
  }

  /** The number a string of decimal digits denotes. */
  function DecimalValue(s: string): nat
    requires AllDigits(s)
  {
    if s == [] then 0 else 10 * DecimalValue(s[..|s| - 1]) + DigitValue(s[|s| - 1])
  }

  /** Reading back the rendered digits gives the number again. */
  lemma {:induction false} DecimalRoundTrip(n: nat)
    ensures DecimalValue(NatToDecimal(n)) == n
  {
    if n >= 10 {
      DecimalRoundTrip(n / 10);
      var r := NatToDecimal(n);
      assert r[..|r| - 1] == NatToDecimal(n / 10);
    }
  }

  /** An integer as a template literal renders it, with a minus sign when negative. */
  function IntToDecimal(n: int): (r: string)
    ensures r != []
    ensures n < 0 ==> r[0] == '-'
    ensures n >= 0 ==> AllDigits(r) && DecimalValue(r) == n
  {
    if n < 0 then "-" + NatToDecimal(-n)
    else DecimalRoundTrip(n); NatToDecimal(n)
  }
}

=== FILE: validators.dfy ===
/** The RSVP field validators (`isValidEmail`, `isValidPhone`, and the
    trimmed-length rule `validateForm` applies to the name and the country),
    each written as the explicit predicate its regular expression decides. */
module Validators {
  import opened Text

  /** The full-name and country rule: a trimmed JavaScript `length` of at
      least 2. That length counts UTF-16 code units, so a single character
      outside the Basic Multilingual Plane already reaches it. A value is
      accepted exactly when it holds two non-space characters, wherever they
      are, or one such wide non-space character. */
  predicate HasMinLength(v: string): (ok: bool)
    ensures ok <==>
            || (exists a, b | 0 <= a < b < |v| :: !IsSpace(v[a]) && !IsSpace(v[b]))
            || (exists a | 0 <= a < |v| :: !IsSpace(v[a]) && IsAstral(v[a]))
  {
    TrimUtf16AtLeastTwo(v);
    Utf16Length(Trim(v)) >= 2
  }

  lemma MinLengthExamples()
    ensures !HasMinLength(" a ") && !HasMinLength("")
    ensures HasMinLength("ab")
    ensures HasMinLength(" \U{1F600} ")
  {
    assert IsSpace(' ') && !IsSpace('a') && !IsSpace('b');
    assert " a "[1] == 'a';
    assert "ab"[0] == 'a' && "ab"[1] == 'b';
    assert " \U{1F600} "[1] == '\U{1F600}';
  }

  // ---------------------------------------------------------------- email

  /** The class `[^\s@]`. */
  predicate EmailChar(c: char) {
    !IsSpace(c) && c != '@'
  }

  /** `t[lo..hi]` is a run of `[^\s@]` characters. */
  predicate EmailRun(t: string, lo: int, hi: int)
    requires 0 <= lo <= hi <= |t|
  {
    forall k | lo <= k < hi :: EmailChar(t[k])
  }

  /** `/^[^\s@]+@[^\s@]+\.[^\s@]+$/.test(t)`: `t` splits at an `@` and a later
      `.` into three non-empty runs of `[^\s@]`. */
  predicate MatchesEmailPattern(t: string) {
    exists at, dot | 0 < at && at + 1 < dot && dot + 1 < |t| ::
      && t[at] == '@' && t[dot] == '.'
      && EmailRun(t, 0, at) && EmailRun(t, at + 1, dot) && EmailRun(t, dot + 1, |t|)
  }

  /** The shape the pattern describes, stated without the regular expression:
      no white space, exactly one `@` with something before it, and a `.` in
      the domain that is neither its first nor its last character. */
  predicate EmailShape(t: string) {
    && NoSpace(t)
    && exists at | 0 < at < |t| ::
         && t[at] == '@'
         && (forall k | 0 <= k < |t| && k != at :: t[k] != '@')
         && (exists dot | at + 1 < dot < |t| - 1 :: t[dot] == '.')
  }

  predicate NoSpace(t: string) {
    forall k | 0 <= k < |t| :: !IsSpace(t[k])
  }

  /** The regular expression accepts exactly the strings of the stated shape. */
  lemma EmailCharacterization(t: string)
    ensures MatchesEmailPattern(t) <==> EmailShape(t)
  {
    if MatchesEmailPattern(t) {
      MatchHasShape(t);
    }
    if EmailShape(t) {
      ShapeMatches(t);
    }
  }

  lemma MatchHasShape(t: string)
    requires MatchesEmailPattern(t)
    ensures EmailShape(t)
  {
    var at, dot :| 0 < at && at + 1 < dot && dot + 1 < |t|
      && t[at] == '@' && t[dot] == '.'
      && EmailRun(t, 0, at) && EmailRun(t, at + 1, dot) && EmailRun(t, dot + 1, |t|);
    forall k | 0 <= k < |t| && k != at
      ensures t[k] != '@' && !IsSpace(t[k])
    {
      if k < at {
        assert EmailChar(t[k]);
      } else if k < dot {
        assert EmailChar(t[k]);
      } else if k > dot {
        assert EmailChar(t[k]);
      }
    }
    assert !IsSpace(t[at]);
    assert NoSpace(t);
    assert at + 1 < dot < |t| - 1 && t[dot] == '.';
  }

  lemma ShapeMatches(t: string)
    requires EmailShape(t)
    ensures MatchesEmailPattern(t)
  {
    var at :| 0 < at < |t| && t[at] == '@'
      && (forall k | 0 <= k < |t| && k != at :: t[k] != '@')
      && (exists dot | at + 1 < dot < |t| - 1 :: t[dot] == '.');
    var dot :| at + 1 < dot < |t| - 1 && t[dot] == '.';
    assert EmailRun(t, 0, at) && EmailRun(t, at + 1, dot) && EmailRun(t, dot + 1, |t|);
  }

  /** `isValidEmail`: the pattern's verdict, which is the stated shape. */
  predicate IsValidEmail(t: string): (ok: bool)
    ensures ok <==> EmailShape(t)
  {
    EmailCharacterization(t);
    MatchesEmailPattern(t)
  }

  /** A concrete split witnesses a match. */
  lemma EmailSplit(t: string, at: nat, dot: nat)
    requires 0 < at && at + 1 < dot && dot + 1 < |t|
    requires t[at] == '@' && t[dot] == '.'
    requires EmailRun(t, 0, at) && EmailRun(t, at + 1, dot) && EmailRun(t, dot + 1, |t|)
    ensures IsValidEmail(t)
  {
  }

  lemma EmailAcceptedExamples()
    ensures IsValidEmail("a@b.co") && IsValidEmail("a@b..c") && IsValidEmail("a@b.c.")
  {
    EmailSplit("a@b.co", 1, 3);
    EmailSplit("a@b..c", 1, 4);
    EmailSplit("a@b.c.", 1, 3);
  }

  lemma EmailRejectedExamples()
    ensures !IsValidEmail("a@b") && !IsValidEmail("a@.c") && !IsValidEmail("a.com") && !IsValidEmail("")
  {
  }

  // ---------------------------------------------------------------- phone

  /** The class `[\d\s\-\(\)\.]`. */
  predicate PhoneChar(c: char) {
    IsDigit(c) || IsSpace(c) || c == '-' || c == '(' || c == ')' || c == '.'
  }

  /** `t[start..]` is `[\d\s\-\(\)\.]{10,15}` up to the end of the string. */
  predicate PhoneTail(t: string, start: nat) {
    && start <= |t|
    && 10 <= |t| - start <= 15
    && forall k | start <= k < |t| :: PhoneChar(t[k])
  }

  /** `/^[\+]?[1-9]?[\d\s\-\(\)\.]{10,15}$/.test(t)`, one disjunct per way of
      taking the two optional prefixes. */
  predicate MatchesPhonePattern(t: string) {
    || PhoneTail(t, 0)
    || (|t| > 0 && '1' <= t[0] <= '9' && PhoneTail(t, 1))
    || (|t| > 0 && t[0] == '+' && PhoneTail(t, 1))
    || (|t| > 1 && t[0] == '+' && '1' <= t[1] <= '9' && PhoneTail(t, 2))
  }

  /** On a string of digits the pattern checks only the length: 10 to 15
      digits, or 16 when the first can be taken by `[1-9]`. */
  lemma DigitsMatchPattern(d: string)
    requires AllDigits(d)
    ensures MatchesPhonePattern(d) && |d| >= 10 <==> 10 <= |d| <= 15 || (|d| == 16 && d[0] != '0')
  {
    assert forall k | 0 <= k < |d| :: PhoneChar(d[k]);
    if |d| > 0 {
      assert d[0] != '+';
    }
  }

  /** `isValidPhone`: the pattern is matched against the digits of the input,
      not the input itself, together with a ten-digit minimum. Only the number
      of digits, and whether a sixteenth digit follows a leading zero, decides. */
  predicate IsValidPhone(phone: string): (ok: bool)
    ensures var d := DigitsOnly(phone);
            ok <==> 10 <= |d| <= 15 || (|d| == 16 && d[0] != '0')
  {
    var d := DigitsOnly(phone);
    DigitsMatchPattern(d);
    MatchesPhonePattern(d) && |d| >= 10
  }

  /** Separators, brackets and `+` never change the verdict: inserting any
      non-digit anywhere leaves it as it was. */
  lemma PhoneIgnoresNonDigits(a: string, c: char, b: string)
    requires !IsDigit(c)
    ensures IsValidPhone(a + [c] + b) <==> IsValidPhone(a + b)
  {
    DigitsOnlyAppend(a + [c], b);
    DigitsOnlyAppend(a, [c]);
    DigitsOnlyAppend(a, b);
    assert DigitsOnly([c]) == [];
  }

  /** Surrounding white space never changes the verdict either. */
  lemma PhoneIgnoresTrim(phone: string)
    ensures IsValidPhone(Trim(phone)) <==> IsValidPhone(phone)
  {
    DigitsOnlyTrim(phone);
  }

  /** The sample number `+1 (555) 123-4567` has eleven digits and is accepted. */
  lemma PhoneAcceptedExample()
    ensures IsValidPhone("+1 (" + "555" + ") " + "123" + "-" + "4567")
  {
    SampleDigits();
  }

  lemma SampleDigits()
    ensures |DigitsOnly("+1 (" + "555" + ") " + "123" + "-" + "4567")| == 11
  {
    var a, b, c, d, e, f := "+1 (", "555", ") ", "123", "-", "4567";
    DigitsOnlyAppend(a + b + c + d + e, f);
    DigitsOnlyAppend(a + b + c + d, e);
    DigitsOnlyAppend(a + b + c, d);
    DigitsOnlyAppend(a + b, c);
    DigitsOnlyAppend(a, b);
    assert a == "+1" + " (";
    DigitsOnlyAppend("+1", " (");
    assert "+1" == "+" + "1";
    DigitsOnlyAppend("+", "1");
    DigitsOnlyExtremes("+");
    DigitsOnlyExtremes("1");
    DigitsOnlyExtremes(" (");
    DigitsOnlyExtremes(b);
    DigitsOnlyExtremes(c);
    DigitsOnlyExtremes(d);
    DigitsOnlyExtremes(e);
    DigitsOnlyExtremes(f);
  }

  lemma PhoneRejectedExample()
    ensures !IsValidPhone("12345")
  {
    DigitsOnlyExtremes("12345");
  }

  /** Sixteen digits pass only without a leading zero. */
  lemma PhoneSixteenDigits(d: string)
    requires |d| == 16 && AllDigits(d)
    ensures IsValidPhone(d) <==> d[0] != '0'
  {
    DigitsOnlyExtremes(d);
  }
}

=== FILE: wrappers.dfy ===
/** Optional values, used for JavaScript's `undefined` and
    `null` results. */
module Wrappers {

  datatype Option<+T> = None | Some(value: T)
}
